=== FILE: README.md ===
# Sign-in widget: view state machine and error-capturing context

This project models the behavioural core of a small React sign-in widget that
hands every credential operation to a hosted authentication client. Two parts
hold all of the logic:

- the **session/error context** (`src/contexts/appContext.tsx`): it holds the
  current session and the last auth error. Its `withCaptureAuthError` wrapper
  clears the error, runs a client call, records the call's error if there is
  one, and returns the call's result unchanged;
- the **view controller** (`src/components/Auth/Auth.tsx`, mounted by
  `src/App.tsx`): it picks one of six form variants (`sign_in`, `sign_up`,
  `magic_link`, `forgotten_password`, `update_password`, `verify_otp`) from the
  active view id. External auth events, in-form links and the page's selector
  change the view. The submit handlers send client calls through the wrapper and
  set the message line and the `loading` flag.

Files (`Wrappers` and `Client` hold shared vocabulary; each of the other modules follows one source file):

- `wrappers.dfy`: `Option`.
- `client.dfy`: the client's vocabulary. A client call is a `Request` value. Its
  outcome is a `Response` (an optional error and optional `data` with user and
  session) that the caller of the model chooses freely. It also holds the OTP categories and the auth-state events.
- `context.dfy`: `Ctx`, the value the context exposes, and the `AppContext` class.
  `sent` logs the calls handed to the client. `provided = false` stands for the
  default context a consumer sees when no provider is mounted.
- `auth.dfy`: the pure parts of the widget: view ids, dispatch, sign-view test,
  links, social section, `capitalize`, `verifyOpts` and rendering. It also holds
  one specification function per event over the widget's state record
  `Snapshot`, and the `AuthWidget` class. Each method of that class does the
  handler's steps in order and is proved to end in the state its function gives.
- `app.dfy`: the page: the selector's table, the initial view, the selector
  handler and the logout control. `Step`/`Run` replay any event sequence, and
  lemmas about every reachable state are proved by induction over them.

Behaviour of the code that the model reproduces:

- Changing view never clears the message line. Only the forgotten-password,
  magic-link, update-password and OTP submit handlers clear it
  (`App.SelectKeepsConfirmation`).
- Of the view changes, only the page's selector clears the error; in-form links
  and auth events do not. Every wrapped call inside a provider also clears it
  before it starts.
- The default context's wrapper resolves to `{ error: null }` without `data`.
  Outside a provider the sign-up branch of the e-mail form then throws while
  reading `data.user`, so `loading` stays on and the submit button stays
  disabled (`App.SignUpOutsideProviderStaysLoading`).
- The e-mail form resets `loading` only while it is still mounted after its call
  resolves. A view change that unmounts it mounts a fresh form with `loading`
  off, so the guard never leaves a visible form disabled
  (`Auth.InterruptedSubmitCommutes`, `App.LoadingStaysOffWithData`).
- A sign-up that returns a session does not change the widget by itself. The
  session reaches the context only through the auth-state listener.
- The OTP form is given neither `showLinks` nor `setAuthView`, so it never
  offers a link.
- Sign-in and sign-up share one `EmailAuth` instance, so toggling between them
  keeps the typed fields. Every other view change mounts a fresh form. That form
  starts empty, or from the carried defaults for the e-mail form.

## Model

| member | source | states |
|---|---|---|
| `Context.UserOf` | src/contexts/appContext.tsx:51 | the user exists exactly when a session exists, and is that session's user |
| `Context.Initial` | src/contexts/appContext.tsx:28-29 | on mount there is no session, no error and no call sent |
| `Context.Answer` | src/contexts/appContext.tsx:23-35 | inside a provider the wrapper returns the call's result unchanged; the default context answers with no error and no `data` |
| `Context.Invoked` | src/contexts/appContext.tsx:31-33 | before the `await`: inside a provider the error is null and the call is appended to the log; the session is untouched; outside a provider nothing changes |
| `Context.Completed` | src/contexts/appContext.tsx:33-35 | after the `await`: a result error is stored, a null one leaves the error as it was; session and log are untouched; outside a provider nothing changes |
| `Context.Captured` | src/contexts/appContext.tsx:31-36 | inside a provider the call is sent once and the stored error ends equal to the result's error; the session is untouched; outside a provider nothing changes |
| `Context.Cleared` | src/contexts/appContext.tsx:38 | `clearError` leaves no error and changes nothing else; the default one does nothing |
| `Context.SessionChanged` | src/contexts/appContext.tsx:41-43 | the listener stores whatever session it receives and changes nothing else |
| `Context.ClearErrorIdempotent` | src/contexts/appContext.tsx:38 | clearing twice is clearing once |
| `Context.ErrorClearedBeforeCall` | src/contexts/appContext.tsx:31-33 | when the operation is started the error is already null, and the call is logged |
| `Context.AppContext.constructor` | src/contexts/appContext.tsx:28-29 | a new context holds the initial value |
| `Context.AppContext.User` | src/contexts/appContext.tsx:51 | `user` is derived from the stored session |
| `Context.AppContext.ClearError` | src/contexts/appContext.tsx:38 | the object's new value is the cleared value |
| `Context.AppContext.Invoke` | src/contexts/appContext.tsx:31-33 | the part before the `await`: error set to null, call sent |
| `Context.AppContext.Complete` | src/contexts/appContext.tsx:33-35 | the part after the `await`: a non-null result error is stored and the result is returned |
| `Context.AppContext.WithCaptureAuthError` | src/contexts/appContext.tsx:31-36 | the two parts in sequence give the `Captured` value and the `Answer` result |
| `Context.AppContext.OnAuthStateChange` | src/contexts/appContext.tsx:41-43 | the provider's listener writes the session |
| `Auth.ParseView` | src/components/Auth/Auth.tsx:58-136 | a string is read as a view exactly when it is that view's id |
| `Auth.IsSignView` | src/components/Auth/Auth.tsx:37-41 | true exactly for the sign-in, sign-up and magic-link views |
| `Auth.Dispatch` | src/components/Auth/Auth.tsx:58-137 | each of the six ids selects the form variant serving that view; any other id selects nothing |
| `Auth.DispatchInjective` | src/components/Auth/Auth.tsx:58-137 | two ids that select the same form variant are the same id |
| `Auth.Resolve` | src/components/Auth/Auth.tsx:15-29 | default props: OTP type `email`, links shown, magic link off, third-party-only off; providers, scopes, query parameters, redirect, extra sign-up data and labels pass through unchanged |
| `Auth.CurrentView` | src/components/Auth/Auth.tsx:480 | the magic-link view uses the sign-in labels; the other sign views keep their own |
| `Auth.LowerCase` | src/components/Auth/Auth.tsx:482 | `toLowerCase` keeps the length and lowers each character in place |
| `Auth.Capitalize` | src/components/Auth/Auth.tsx:482 | same length, first character upper-cased, every later one lower-cased |
| `Auth.CapitalizeIdempotent` | src/components/Auth/Auth.tsx:482 | capitalizing a capitalized word changes nothing |
| `Auth.Buttons` | src/components/Auth/Auth.tsx:504-517 | one button per provider in order, showing the capitalized provider name |
| `Auth.SocialAuth` | src/components/Auth/Auth.tsx:469-521 | nothing for an empty provider list; github, google, facebook when none is given; the divider only when not third-party-only |
| `Auth.IsPhone` | src/components/Auth/Auth.tsx:583 | true exactly for the mobile categories; false exactly for the e-mail categories |
| `Auth.VerifyOpts` | src/components/Auth/Auth.tsx:583-592 | phone and token exactly for `sms`/`phone_change`, e-mail and token otherwise; the type is passed through and fits the payload's union |
| `Auth.Links` | src/components/Auth/Auth.tsx:280-576 | magic-link link only from sign-in with `magicLink`; forgot-password only from sign-in; the sign-in/sign-up toggles carry the draft; the other forms' sign-in links do not; no links with `showLinks` off or on the update-password and OTP forms; no link other than these five is ever offered |
| `Auth.Start` | src/components/Auth/Auth.tsx:30-32 | the widget starts with empty default e-mail and password, empty message and fields, not loading |
| `Auth.ChangeView` | src/components/Auth/Auth.tsx:58-137 | a view change keeps defaults, message and error; it keeps the fields only while the same form instance stays mounted, otherwise the new form starts fresh |
| `Auth.AuthStateChanged` | src/components/Auth/Auth.tsx:43-54 | password recovery forces `update_password`, user-updated or signed-out forces `sign_in`; any other event changes only the stored session; defaults and message are kept; after a forced change the fields and `loading` survive only if the same form instance stays mounted, otherwise the new form starts fresh |
| `Auth.FollowedLink` | src/components/Auth/Auth.tsx:193-197 | a link opens its view; the toggles copy the typed e-mail and password into the defaults first and keep the fields and `loading` (same form instance); the other links keep the defaults and mount a fresh form with `loading` off |
| `Auth.WithField` | src/components/Auth/Auth.tsx:245-268 | the changed field takes the typed value and every other field keeps its own |
| `Auth.Collects` | src/components/Auth/Auth.tsx:245-624 | a password input on the e-mail and update-password forms only, a token input on the OTP form only, a phone input on the OTP form for a mobile category only, an e-mail input on every other form |
| `Auth.Typed` | src/components/Auth/Auth.tsx:245-268 | typing stores the value in that field when the mounted form shows it, and changes nothing otherwise; view, defaults, message, `loading` and context are kept |
| `Auth.EmailAuthSubmitted` | src/components/Auth/Auth.tsx:199-225 | sign-in sends the credentials and never touches the message; sign-up sets the confirmation only when a user but no session comes back; `loading` ends off exactly unless the sign-up reads an answer without `data` and throws, which also leaves the message alone |
| `Auth.EmailSubmitInterrupted` | src/components/Auth/Auth.tsx:199-230 | with a view change while the call is pending: the call sent is the one for the starting view, defaults are kept, the view ends at the new one, and `loading` stays on exactly when sign-up throws and the same form instance is still mounted |
| `Auth.InterruptedSubmitCommutes` | src/components/Auth/Auth.tsx:199-230 | a view change while the call is pending, with the `isMounted` guard, ends in the state of the submit followed by that view change |
| `Auth.ConfirmedSubmit` | src/components/Auth/Auth.tsx:348-359 | message cleared, call captured, confirmation shown exactly when the answer has no error, `loading` false on both paths, fields kept |
| `Auth.PasswordResetSubmitted` | src/components/Auth/Auth.tsx:348-359 | the reset e-mail request for the typed address, with the confirming-submit behaviour |
| `Auth.MagicLinkSubmitted` | src/components/Auth/Auth.tsx:414-426 | the one-time sign-in request for the typed address, with the confirming-submit behaviour |
| `Auth.PasswordUpdateSubmitted` | src/components/Auth/Auth.tsx:530-539 | the password update request, with the confirming-submit behaviour |
| `Auth.OtpSubmitted` | src/components/Auth/Auth.tsx:585-596 | message cleared, the `verifyOpts` payload sent, `loading` false, no confirmation; view, fields and defaults kept |
| `Auth.ProviderSignedIn` | src/components/Auth/Auth.tsx:484-497 | an OAuth call with the provider's scopes, the redirect and the query parameters; only the context changes |
| `Auth.Render` | src/components/Auth/Auth.tsx:139-168 | nothing for an unknown view; social section only above a sign view with providers, holding the provider buttons for the current view's labels; form only when not third-party-only; the message line shows the message when it is non-empty, the error line shows the context's error, both only when not third-party-only |
| `Auth.AuthWidget.constructor` | src/components/Auth/Auth.tsx:30-32 | a mounted widget is in the `Start` state |
| `Auth.AuthWidget.SetView` | src/components/Auth/Auth.tsx:58-137 | the state after `setView` is `ChangeView` of the old state |
| `Auth.AuthWidget.OnAuthStateChange` | src/components/Auth/Auth.tsx:43-54 | both listeners together give `AuthStateChanged` |
| `Auth.AuthWidget.Type` | src/components/Auth/Auth.tsx:245-268 | an input change gives `Typed` |
| `Auth.AuthWidget.FollowLink` | src/components/Auth/Auth.tsx:193-197 | `handleViewChange` / `setAuthView` give `FollowedLink` |
| `Auth.AuthWidget.HandleSubmit` | src/components/Auth/Auth.tsx:199-225 | the e-mail form's handler, including the early exit when sign-up throws, gives `EmailAuthSubmitted` |
| `Auth.AuthWidget.SubmitConfirmed` | src/components/Auth/Auth.tsx:348-359 | the shared handler body gives `ConfirmedSubmit` |
| `Auth.AuthWidget.HandlePasswordReset` | src/components/Auth/Auth.tsx:348-359 | gives `PasswordResetSubmitted` |
| `Auth.AuthWidget.HandleMagicLinkSignIn` | src/components/Auth/Auth.tsx:414-426 | gives `MagicLinkSubmitted` |
| `Auth.AuthWidget.HandlePasswordUpdate` | src/components/Auth/Auth.tsx:530-539 | gives `PasswordUpdateSubmitted` |
| `Auth.AuthWidget.HandleOtpSubmit` | src/components/Auth/Auth.tsx:585-596 | gives `OtpSubmitted` |
| `Auth.AuthWidget.HandleProviderSignIn` | src/components/Auth/Auth.tsx:484-497 | gives `ProviderSignedIn` |
| `App.ViewOptions` | src/App.tsx:6-13 | six options with distinct ids, each a view the widget dispatches |
| `App.ViewOptionsCoverEveryView` | src/App.tsx:6-13 | every view of the widget is among the options |
| `App.PageConfig` | src/App.tsx:39-43 | the page passes google, github and facebook and leaves every other prop at its default: no redirect, scopes, query parameters or extra sign-up data, flags and OTP type at their defaults |
| `App.PageStart` | src/App.tsx:16 | the page starts on `sign_in` with no session, error or message, inside the context provider |
| `App.Select` | src/App.tsx:49-52 | the selector clears the error and sets the chosen view; message and defaults are kept; fields and `loading` survive only between sign-in and sign-up, otherwise the new form starts fresh |
| `App.LogoutShown` | src/App.tsx:21 | the logout control exists exactly while there is a session, hence a user |
| `App.LoggedOut` | src/App.tsx:21-28 | logout sends `signOut` through the wrapper; without a user nothing happens |
| `App.SelectView` | src/App.tsx:49-52 | `clearError()` then `setView(...)` give `Select` |
| `App.ClickLogout` | src/App.tsx:21-28 | gives `LoggedOut`, and a result exactly when the control was shown |
| `App.Step` | src/App.tsx:21-56 | a submit while `loading` (button disabled) and a selector value outside the options change nothing; only submits, provider clicks and logout send calls; whether a provider is mounted never changes |
| `App.StepKeepsViewKnown` | src/App.tsx:6-13 | no single event leads from a known view to an unknown one |
| `App.RunKeepsViewKnown` | src/App.tsx:47-56 | from a known view every event sequence keeps the view known and the widget rendering |
| `App.PageAlwaysRenders` | src/App.tsx:39-56 | on the page the render-nothing branch is unreachable |
| `App.StepOutsideProvider` | src/contexts/appContext.tsx:23-24 | without a provider no event changes the context |
| `App.RunOutsideProvider` | src/contexts/appContext.tsx:23-24 | without a provider no event sequence sends a call, records an error or sets a session |
| `App.SessionOnlyFromNotifications` | src/contexts/appContext.tsx:41-43 | the session changes only on notifications from the auth-state stream |
| `App.RunOnlyAppendsCalls` | src/contexts/appContext.tsx:31-36 | the call log only grows, by at most one call per event |
| `App.RecoveryForcesUpdatePassword` | src/components/Auth/Auth.tsx:46-47 | password recovery forces `update_password` from any state, `sign_up` included |
| `App.ToggleKeepsDraft` | src/components/Auth/Auth.tsx:193-197 | sign-in to sign-up and back keeps the typed e-mail and password |
| `App.ReturnRestoresDefaults` | src/components/Auth/Auth.tsx:186-188 | a remounted e-mail form starts from the carried defaults |
| `App.FailedSubmitKeepsFields` | src/components/Auth/Auth.tsx:348-359 | a failed non-e-mail submit clears `loading` and the message, keeps the fields and records the error |
| `App.PageOffersNoMagicLinkLink` | src/App.tsx:39-43 | the page never offers the magic-link link |
| `App.SelectKeepsConfirmation` | src/App.tsx:49-52 | after a sign-up awaiting confirmation, choosing any view clears the error and the confirmation stays on screen |
| `App.SignUpOutsideProviderStaysLoading` | src/components/Auth/Auth.tsx:199-225 | outside a provider a sign-up leaves `loading` on, the message, fields and context unchanged, and a second submit does nothing |
| `App.StepSetsLoadingOnlyOnThrow` | src/components/Auth/Auth.tsx:199-225 | the only event that can turn `loading` on and leave it on is a sign-up submit that throws |
| `App.LoadingStaysOffWithData` | src/components/Auth/Auth.tsx:224-230 | inside a provider, while every answer carries `data`, no event sequence leaves a form with `loading` on |

## Left out

- JSX markup, CSS classes and input attributes are presentation only.
- Label texts and the i18n `merge`/`template` functions come from a foreign
  library. Confirmation texts are opaque strings in `Labels`. A provider button
  records the view whose template it uses and the capitalized name it fills in,
  not the final text.
- The client calls (`signInWithPassword`, `signUp`, `signInWithOtp`,
  `resetPasswordForEmail`, `updateUser`, `verifyOtp`, `signInWithOAuth`,
  `signOut`) are network I/O. Each becomes a logged `Request`, and its outcome is
  a caller-chosen `Response`.
- The `useEffect` subscribe/unsubscribe lifecycle is not modelled. Each handler
  runs as one step in `Step`. The only event during a pending call that is
  modelled is a plain `setView` during the e-mail form's call: it gives the same
  state as the step followed by that view change. Any other event while a call
  is pending is not modelled. For example, a selector choice runs `clearError()`
  and `setView`, and a late error then still runs `setError(result.error)`, so
  the old call's error appears on the newly chosen form. `Step` followed by
  `Choose` leaves no error in that case.
- The social section's own `loading` flag is not modelled. It disables the
  provider buttons during an OAuth call, and it is always false between atomic
  steps.
- The props' own defaults inside the form components are not modelled separately
  (`setAuthView = () => {}`, `showLinks = false`, the widget's `view = 'sign_in'`).
  The widget always passes these props, except `showLinks` and `setAuthView` to the
  OTP form, which the model takes into account.
- The selector's value is modelled as the index of the chosen option. The page
  casts the option's string without checking it.
- `e.preventDefault()` is browser behaviour.
- The `supabase` client object in the context value is not modelled.
- The file that mounts the page is not part of this model. `App.PageStart` takes
  the page to be mounted inside `AppContextProvider`, so its context is a provided one.
- `src/components/Auth/types.ts` holds declarations only. It shapes `AuthProps`.
- `Auth.Capitalize`: upper- and lower-casing are modelled for ASCII letters only.
  JavaScript's `toUpperCase`/`toLowerCase` follow full Unicode case mapping, which
  can also change a string's length.
- `Auth.LowerCase`: ASCII letters only, for the same reason.

=== FILE: app.dfy ===
/**
 * The embedding page (src/App.tsx): it holds the active view, offers the six
 * views in a selector, shows a logout control while someone is signed in, and
 * mounts the widget with three providers. `Step` and `Run` replay any sequence
 * of user and client events against the widget's specification, so that
 * properties of every reachable state can be proved.
 */
module App {
  import opened Wrappers
  import C = Client
  import Context
  import opened Auth

  datatype ViewOption = ViewOption(id: string, title: string)

  /** The selector's options: six distinct ids, each of them a view the widget dispatches. */
  function ViewOptions(): (r: seq<ViewOption>)
    ensures |r| == 6
    ensures forall i, j :: 0 <= i < j < |r| ==> r[i].id != r[j].id
    ensures forall i :: 0 <= i < |r| ==> ParseView(r[i].id).Some?
  {
    [ ViewOption("sign_in", "Sign In"),
      ViewOption("sign_up", "Sign Up"),
      ViewOption("magic_link", "Magic Link"),
      ViewOption("forgotten_password", "Forgotten Password"),
      ViewOption("update_password", "Update Password"),
      ViewOption("verify_otp", "Verify Otp") ]
  }

  /** Every view of the widget can be chosen in the selector. */
  lemma ViewOptionsCoverEveryView(v: View)
    ensures exists i :: 0 <= i < |ViewOptions()| && ViewOptions()[i].id == ViewId(v)
  {
    var options := ViewOptions();
    match v
    case SignIn => assert options[0].id == ViewId(v);
    case SignUp => assert options[1].id == ViewId(v);
    case MagicLink => assert options[2].id == ViewId(v);
    case ForgottenPassword => assert options[3].id == ViewId(v);
    case UpdatePassword => assert options[4].id == ViewId(v);
    case VerifyOtp => assert options[5].id == ViewId(v);
  }

  const InitialView: string := "sign_in"

  /** The props the page passes: its three providers, every other prop left to its default. */
  function PageConfig(labels: Labels): (c: Config)
    ensures c.providers == Some(["google", "github", "facebook"])
    ensures !c.onlyThirdPartyProviders && !c.magicLink && c.showLinks && c.otpType == C.Email
    ensures c.redirectTo.None? && c.queryParams.None? && c.providerScopes == map[] && c.additionalData.None?
    ensures c.labels == labels
  {
    Resolve(AuthProps(Some(["google", "github", "facebook"]), map[], None, None, None, None, None, None, None, labels))
  }

  /**
   * The page's state on mount: view `sign_in`, no session, no error, no message.
   * The page is taken to be mounted inside the context provider.
   */
  function PageStart(labels: Labels): (s: Snapshot)
    ensures s.view == ViewId(SignIn) && s.message == ""
    ensures s.ctx.provided && s.ctx.session.None? && s.ctx.error.None? && s.ctx.sent == []
  {
    Start(PageConfig(labels), Context.Initial(true), InitialView)
  }

  /**
   * The selector's `onChange`: clear the error, then set the view to the chosen
   * id. The message line is left as it was.
   */
  function Select(c: Config, s: Snapshot, option: nat): (r: Snapshot)
    requires option < |ViewOptions()|
    ensures r.view == ViewOptions()[option].id
    ensures r.ctx == Context.Cleared(s.ctx)
    ensures s.ctx.provided ==> r.ctx.error.None?
    ensures r.message == s.message
    ensures r.defaultEmail == s.defaultEmail && r.defaultPassword == s.defaultPassword
    ensures SameComponent(Mounted(c, s.view), Mounted(c, r.view)) ==> r.draft == s.draft && r.loading == s.loading
    ensures !SameComponent(Mounted(c, s.view), Mounted(c, r.view)) ==>
              !r.loading && r.draft == FreshDraft(Mounted(c, r.view), s.defaultEmail, s.defaultPassword)
  {
    ChangeView(c, s.(ctx := Context.Cleared(s.ctx)), ViewOptions()[option].id)
  }

  /** The logout control is rendered exactly while the context has a user. */
  function LogoutShown(ctx: Context.Ctx): (b: bool)
    ensures b <==> ctx.session.Some?
  {
    Context.UserOf(ctx.session).Some?
  }

  /** Clicking logout sends `signOut` through the wrapper; without a user there is nothing to click. */
  function LoggedOut(s: Snapshot, outcome: C.Response): (r: Snapshot)
    ensures !LogoutShown(s.ctx) ==> r == s
    ensures LogoutShown(s.ctx) ==> r == s.(ctx := Context.Captured(s.ctx, C.SignOut, outcome))
    ensures r.ctx.session == s.ctx.session
  {
    if LogoutShown(s.ctx) then s.(ctx := Context.Captured(s.ctx, C.SignOut, outcome)) else s
  }

  method SelectView(w: AuthWidget, option: nat)
    requires option < |ViewOptions()|
    modifies w, w.ctx
    ensures w.Snap() == Select(w.config, old(w.Snap()), option)
  {
    w.ctx.ClearError();
    w.SetView(ViewOptions()[option].id);
  }

  method ClickLogout(w: AuthWidget, outcome: C.Response) returns (r: Option<C.Response>)
    modifies w.ctx
    ensures w.Snap() == LoggedOut(old(w.Snap()), outcome)
    ensures r.Some? <==> old(LogoutShown(w.ctx.Value()))
  {
    if w.ctx.User().Some? {
      var answer := w.ctx.WithCaptureAuthError(C.SignOut, outcome);
      r := Some(answer);
    } else {
      r := None;
    }
  }

  // ---------------------------------------------------------------- traces

  /** Everything that can happen to the page. */
  datatype PageEvent =
    | Choose(option: nat)
    | Notify(event: C.AuthEvent, session: Option<C.Session>)
    | Click(link: Link)
    | Enter(field: Field, value: string)
    | Submit(outcome: C.Response)
    | ProviderClick(provider: string, outcome: C.Response)
    | LogoutClick(outcome: C.Response)

  /**
   * One event. A control that is not on screen cannot be used, and a submit
   * button is disabled while `loading`: such events change nothing.
   */
  function Step(c: Config, s: Snapshot, e: PageEvent): (r: Snapshot)
    ensures e.Submit? && s.loading ==> r == s
    ensures e.Choose? && e.option >= |ViewOptions()| ==> r == s
    ensures !(e.Submit? || e.ProviderClick? || e.LogoutClick?) ==> r.ctx.sent == s.ctx.sent
    ensures r.ctx.provided == s.ctx.provided
  {
    match e
    case Choose(i) => if i < |ViewOptions()| then Select(c, s, i) else s
    case Notify(event, session) => AuthStateChanged(c, s, event, session)
    case Click(l) => if l in OfferedLinks(c, s) then FollowedLink(c, s, l) else s
    case Enter(field, value) => Typed(c, s, field, value)
    case Submit(outcome) =>
      if s.loading then s
      else (
        match Mounted(c, s.view)
        case None => s
        case Some(f) => (
          match f
          case EmailAuthForm(_) => EmailAuthSubmitted(c, s, outcome)
          case ForgottenPasswordForm => PasswordResetSubmitted(c, s, outcome)
          case MagicLinkForm => MagicLinkSubmitted(c, s, outcome)
          case UpdatePasswordForm => PasswordUpdateSubmitted(c, s, outcome)
          case VerifyOtpForm(_) => OtpSubmitted(c, s, outcome)))
    case ProviderClick(p, outcome) =>
      if IsSignView(s.view) && p in ProvidersOf(c.providers) then ProviderSignedIn(c, s, p, outcome) else s
    case LogoutClick(outcome) => LoggedOut(s, outcome)
  }

  function Run(c: Config, s: Snapshot, events: seq<PageEvent>): Snapshot
    decreases |events|
  {
    if events == [] then s else Run(c, Step(c, s, events[0]), events[1..])
  }

  /** Whether the view id names one of the six views. */
  predicate KnownView(s: Snapshot) {
    ParseView(s.view).Some?
  }

  lemma StepKeepsViewKnown(c: Config, s: Snapshot, e: PageEvent)
    requires KnownView(s)
    ensures KnownView(Step(c, s, e))
  {
  }

  /**
   * Starting from a known view, no sequence of events leads to an unknown one:
   * the widget's render-nothing branch is never reached from the page.
   */
  lemma {:induction false} RunKeepsViewKnown(c: Config, s: Snapshot, events: seq<PageEvent>)
    requires KnownView(s)
    ensures KnownView(Run(c, s, events))
    ensures Render(c, Run(c, s, events)).Some?
    decreases |events|
  {
    if events != [] {
      StepKeepsViewKnown(c, s, events[0]);
      RunKeepsViewKnown(c, Step(c, s, events[0]), events[1..]);
    }
  }

  /** Every state the page reaches renders a form variant. */
  lemma PageAlwaysRenders(labels: Labels, events: seq<PageEvent>)
    ensures Render(PageConfig(labels), Run(PageConfig(labels), PageStart(labels), events)).Some?
  {
    RunKeepsViewKnown(PageConfig(labels), PageStart(labels), events);
  }

  lemma StepOutsideProvider(c: Config, s: Snapshot, e: PageEvent)
    requires !s.ctx.provided
    ensures Step(c, s, e).ctx == s.ctx
  {
  }

  /**
   * Without a provider the default context is inert: whatever happens, nothing
   * is sent to the client, no session appears and no error is recorded.
   */
  lemma {:induction false} RunOutsideProvider(c: Config, s: Snapshot, events: seq<PageEvent>)
    requires !s.ctx.provided
    ensures Run(c, s, events).ctx == s.ctx
    decreases |events|
  {
    if events != [] {
      StepOutsideProvider(c, s, events[0]);
      RunOutsideProvider(c, Step(c, s, events[0]), events[1..]);
    }
  }

  /** Only a notification from the client's auth-state stream changes the session. */
  lemma {:induction false} SessionOnlyFromNotifications(c: Config, s: Snapshot, events: seq<PageEvent>)
    requires forall i :: 0 <= i < |events| ==> !events[i].Notify?
    ensures Run(c, s, events).ctx.session == s.ctx.session
    decreases |events|
  {
    if events != [] {
      var next := Step(c, s, events[0]);
      assert next.ctx.session == s.ctx.session;
      SessionOnlyFromNotifications(c, next, events[1..]);
    }
  }

  /** Calls are only ever appended: the log of earlier calls is never rewritten. */
  lemma {:induction false} RunOnlyAppendsCalls(c: Config, s: Snapshot, events: seq<PageEvent>)
    ensures s.ctx.sent <= Run(c, s, events).ctx.sent
    ensures |Run(c, s, events).ctx.sent| <= |s.ctx.sent| + |events|
    ensures Run(c, s, events).ctx.provided == s.ctx.provided
    decreases |events|
  {
    if events != [] {
      var next := Step(c, s, events[0]);
      assert s.ctx.sent <= next.ctx.sent && |next.ctx.sent| <= |s.ctx.sent| + 1;
      RunOnlyAppendsCalls(c, next, events[1..]);
    }
  }

  /** A password-recovery notification forces `update_password` from any state, `sign_up` included. */
  lemma RecoveryForcesUpdatePassword(c: Config, s: Snapshot, session: Option<C.Session>)
    ensures Step(c, s, Notify(C.PasswordRecovery, session)).view == ViewId(UpdatePassword)
  {
  }

  /**
   * Toggling sign-in, sign-up and back keeps the typed e-mail and password in
   * the fields and leaves them as the defaults.
   */
  lemma ToggleKeepsDraft(c: Config, s: Snapshot)
    requires Mounted(c, s.view) == Some(EmailAuthForm(SignIn)) && c.showLinks
    ensures var s1 := Step(c, s, Click(Link(SignUp, true)));
            var s2 := Step(c, s1, Click(Link(SignIn, true)));
            s1.view == ViewId(SignUp) && s2.view == ViewId(SignIn) &&
            s1.draft == s.draft && s2.draft == s.draft &&
            s2.defaultEmail == s.draft.email && s2.defaultPassword == s.draft.password
  {
  }

  /**
   * After leaving the e-mail form for another form, coming back to it through
   * the selector starts from the e-mail and password last carried by a toggle.
   */
  lemma ReturnRestoresDefaults(c: Config, s: Snapshot, back: nat)
    requires Mounted(c, s.view).Some? && !Mounted(c, s.view).value.EmailAuthForm?
    requires back < |ViewOptions()| && ViewOptions()[back].id == ViewId(SignIn)
    ensures Step(c, s, Choose(back)).draft.email == s.defaultEmail
    ensures Step(c, s, Choose(back)).draft.password == s.defaultPassword
  {
  }

  /** A failed submit of the reset, magic-link, update or OTP form clears `loading` and keeps the fields. */
  lemma FailedSubmitKeepsFields(c: Config, s: Snapshot, outcome: C.Response)
    requires !s.loading && s.ctx.provided && outcome.error.Some?
    requires Mounted(c, s.view).Some? && !Mounted(c, s.view).value.EmailAuthForm?
    ensures var r := Step(c, s, Submit(outcome));
            !r.loading && r.draft == s.draft && r.view == s.view && r.message == "" &&
            r.ctx.error == outcome.error
  {
  }

  /** In the page the magic-link link is never offered: the page leaves `magicLink` off. */
  lemma PageOffersNoMagicLinkLink(labels: Labels, s: Snapshot)
    ensures Link(MagicLink, false) !in OfferedLinks(PageConfig(labels), s)
  {
  }

  /**
   * After a sign-up that awaits e-mail confirmation, choosing any view in the
   * selector clears the error but the confirmation stays on screen.
   */
  lemma SelectKeepsConfirmation(c: Config, s: Snapshot, outcome: C.Response, option: nat)
    requires !s.loading && Mounted(c, s.view) == Some(EmailAuthForm(SignUp))
    requires AwaitsConfirmation(Context.Answer(s.ctx, outcome)) && c.labels.signUpConfirmation != ""
    requires option < |ViewOptions()|
    ensures var r := Step(c, Step(c, s, Submit(outcome)), Choose(option));
            r.view == ViewOptions()[option].id && (s.ctx.provided ==> r.ctx.error.None?) &&
            Render(c, r).Some? && Render(c, r).value.message == Some(c.labels.signUpConfirmation)
  {
  }

  /**
   * Outside a provider a sign-up throws on the default answer: `loading` stays
   * on, so the button stays disabled and a second submit does nothing.
   */
  lemma SignUpOutsideProviderStaysLoading(c: Config, s: Snapshot, outcome: C.Response, again: C.Response)
    requires !s.loading && !s.ctx.provided && Mounted(c, s.view) == Some(EmailAuthForm(SignUp))
    ensures var r := Step(c, s, Submit(outcome));
            r.loading && r.message == s.message && r.ctx == s.ctx && r.draft == s.draft &&
            Step(c, r, Submit(again)) == r
  {
  }

  /** The only event that can leave `loading` on is a sign-up submit that throws. */
  lemma StepSetsLoadingOnlyOnThrow(c: Config, s: Snapshot, e: PageEvent)
    requires !s.loading
    ensures Step(c, s, e).loading ==> e.Submit? && SignUpThrows(s, e.outcome)
  {
  }

  /**
   * Inside a provider, while the client answers every submit with `data`, no
   * form is ever left with `loading` on: the unmounted-form guard never leaves
   * a visible form disabled.
   */
  lemma {:induction false} LoadingStaysOffWithData(c: Config, s: Snapshot, events: seq<PageEvent>)
    requires !s.loading && s.ctx.provided
    requires forall i :: 0 <= i < |events| && events[i].Submit? ==> events[i].outcome.data.Some?
    ensures !Run(c, s, events).loading
    decreases |events|
  {
    if events != [] {
      var next := Step(c, s, events[0]);
      StepSetsLoadingOnlyOnThrow(c, s, events[0]);
      LoadingStaysOffWithData(c, next, events[1..]);
    }
  }
}

=== FILE: auth.dfy ===
/**
 * The view controller (src/components/Auth/Auth.tsx): which of six form
 * variants is shown, how in-form links, external auth events and submits
 * change the widget's state, and the pure helpers the forms use.
 *
 * The widget's state is one record, `Snapshot`: the active view id (held by
 * the embedding page and written through `setView`), the e-mail/password
 * defaults carried between the sign-in and sign-up forms, the message line,
 * the draft fields and `loading` flag of the mounted form, and the context.
 * Each event is specified by a function from the old `Snapshot` to the new
 * one; class `AuthWidget` performs the same event step by step and its
 * methods are proved to end in the state that function gives.
 */
module Auth {
  import opened Wrappers
  import C = Client
  import Context

  // ---------------------------------------------------------------- views

  datatype View = SignIn | SignUp | MagicLink | ForgottenPassword | UpdatePassword | VerifyOtp

  /** The string ids of the views (`VIEWS.*`). */
  function ViewId(v: View): string {
    match v
    case SignIn => "sign_in"
    case SignUp => "sign_up"
    case MagicLink => "magic_link"
    case ForgottenPassword => "forgotten_password"
    case UpdatePassword => "update_password"
    case VerifyOtp => "verify_otp"
  }

  /** Reads a view id; any other string is not a view. */
  function ParseView(id: string): (r: Option<View>)
    ensures r.Some? ==> ViewId(r.value) == id
    ensures r.None? ==> forall v :: ViewId(v) != id
  {
    if id == "sign_in" then Some(SignIn)
    else if id == "sign_up" then Some(SignUp)
    else if id == "magic_link" then Some(MagicLink)
    else if id == "forgotten_password" then Some(ForgottenPassword)
    else if id == "update_password" then Some(UpdatePassword)
    else if id == "verify_otp" then Some(VerifyOtp)
    else None
  }

  /** The views that offer social sign-in. */
  predicate IsSignKind(v: View) {
    v == SignIn || v == SignUp || v == MagicLink
  }

  type SignView = v: View | IsSignKind(v) witness SignIn

  type EmailView = v: View | v == SignIn || v == SignUp witness SignIn

  /** `isSignView`: the views above which the social-provider section is shown. */
  function IsSignView(id: string): (b: bool)
    ensures b <==> ParseView(id).Some? && IsSignKind(ParseView(id).value)
  {
    id == "sign_in" || id == "sign_up" || id == "magic_link"
  }

  // ---------------------------------------------------------------- forms

  /** The form variants; sign-in and sign-up share one component. */
  datatype Form =
    | EmailAuthForm(authView: EmailView)
    | ForgottenPasswordForm
    | MagicLinkForm
    | UpdatePasswordForm
    | VerifyOtpForm(otpType: C.OtpType)

  /** The view a form variant serves. */
  function FormView(f: Form): View {
    match f
    case EmailAuthForm(v) => v
    case ForgottenPasswordForm => ForgottenPassword
    case MagicLinkForm => MagicLink
    case UpdatePasswordForm => UpdatePassword
    case VerifyOtpForm(_) => VerifyOtp
  }

  /**
   * The `switch (view)`: each of the six view ids selects exactly the form that
   * serves that view; any other id selects nothing (the widget renders null).
   */
  function Dispatch(id: string, otpType: C.OtpType): (r: Option<Form>)
    ensures r.None? <==> ParseView(id).None?
    ensures r.Some? ==> FormView(r.value) == ParseView(id).value
    ensures r.Some? && r.value.VerifyOtpForm? ==> r.value.otpType == otpType
  {
    if id == ViewId(SignIn) then Some(EmailAuthForm(SignIn))
    else if id == ViewId(SignUp) then Some(EmailAuthForm(SignUp))
    else if id == ViewId(ForgottenPassword) then Some(ForgottenPasswordForm)
    else if id == ViewId(MagicLink) then Some(MagicLinkForm)
    else if id == ViewId(UpdatePassword) then Some(UpdatePasswordForm)
    else if id == ViewId(VerifyOtp) then Some(VerifyOtpForm(otpType))
    else None
  }

  /** Two different view ids never share a form variant. */
  lemma DispatchInjective(a: string, b: string, t: C.OtpType)
    requires Dispatch(a, t).Some? && Dispatch(a, t) == Dispatch(b, t)
    ensures a == b
  {
  }

  // ---------------------------------------------------------------- props

  /** The label texts the forms display after a successful call (opaque i18n strings). */
  datatype Labels = Labels(signUpConfirmation: string, forgottenPasswordConfirmation: string,
                           magicLinkConfirmation: string, updatePasswordConfirmation: string)

  /** The widget's props as the embedding page passes them; `None` is an omitted prop. */
  datatype AuthProps = AuthProps(
    providers: Option<seq<string>>,
    providerScopes: map<string, string>,
    queryParams: Option<map<string, string>>,
    redirectTo: Option<string>,
    onlyThirdPartyProviders: Option<bool>,
    magicLink: Option<bool>,
    showLinks: Option<bool>,
    otpType: Option<C.OtpType>,
    additionalData: Option<map<string, string>>,
    labels: Labels)

  /** The props after the widget's defaults are applied. */
  datatype Config = Config(
    providers: Option<seq<string>>,
    providerScopes: map<string, string>,
    queryParams: Option<map<string, string>>,
    redirectTo: Option<string>,
    onlyThirdPartyProviders: bool,
    magicLink: bool,
    showLinks: bool,
    otpType: C.OtpType,
    additionalData: Option<map<string, string>>,
    labels: Labels)

  /**
   * Default props: third-party-only off, magic link off, links shown, OTP type
   * `email`; the provider list keeps its absence (the social section has its own default).
   */
  function Resolve(a: AuthProps): (c: Config)
    ensures a.otpType.None? ==> c.otpType == C.Email
    ensures a.otpType.Some? ==> c.otpType == a.otpType.value
    ensures c.showLinks <==> a.showLinks != Some(false)
    ensures c.magicLink <==> a.magicLink == Some(true)
    ensures c.onlyThirdPartyProviders <==> a.onlyThirdPartyProviders == Some(true)
    ensures c.providers == a.providers && c.redirectTo == a.redirectTo && c.labels == a.labels
    ensures c.providerScopes == a.providerScopes && c.queryParams == a.queryParams
    ensures c.additionalData == a.additionalData
  {
    Config(a.providers, a.providerScopes, a.queryParams, a.redirectTo,
           a.onlyThirdPartyProviders.GetOr(false), a.magicLink.GetOr(false), a.showLinks.GetOr(true),
           a.otpType.GetOr(C.Email), a.additionalData, a.labels)
  }

  // ---------------------------------------------------------------- social providers

  const DefaultProviders: seq<string> := ["github", "google", "facebook"]

  /** The provider list the social section uses. */
  function ProvidersOf(providers: Option<seq<string>>): seq<string> {
    providers.GetOr(DefaultProviders)
  }

  /** `currentView`: the magic-link view borrows the sign-in labels. */
  function CurrentView(view: SignView): (r: EmailView)
    ensures view == MagicLink ==> r == SignIn
    ensures view != MagicLink ==> r == view
  {
    if view == MagicLink then SignIn else view
  }

  /** ASCII reading of `toUpperCase` on one character. */
  function UpperChar(ch: char): char {
    if 'a' <= ch <= 'z' then (ch as int - 32) as char else ch
  }

  /** ASCII reading of `toLowerCase` on one character. */
  function LowerChar(ch: char): char {
    if 'A' <= ch <= 'Z' then (ch as int + 32) as char else ch
  }

  /** `toLowerCase` on a string: each character lowered in place. */
  function LowerCase(s: string): (r: string)
    ensures |r| == |s|
    ensures forall i :: 0 <= i < |s| ==> r[i] == LowerChar(s[i])
  {
    if s == [] then [] else [LowerChar(s[0])] + LowerCase(s[1..])
  }

  /** `capitalize`: the first character upper-cased, the rest lower-cased. */
  function Capitalize(word: string): (r: string)
    ensures |r| == |word|
    ensures |word| > 0 ==> r[0] == UpperChar(word[0])
    ensures forall i :: 0 < i < |word| ==> r[i] == LowerChar(word[i])
  {
    if word == [] then [] else [UpperChar(word[0])] + LowerCase(word)[1..]
  }

  lemma CapitalizeIdempotent(word: string)
    ensures Capitalize(Capitalize(word)) == Capitalize(word)
  {
  }

  /** One provider button: the provider, the view whose label template it uses, the provider name shown. */
  datatype Button = Button(provider: string, labelView: EmailView, providerName: string)

  datatype SocialSection = SocialSection(buttons: seq<Button>, divider: bool)

  /** `providers.map(...)`: one button per provider, in order. */
  function Buttons(providers: seq<string>, labelView: EmailView): (r: seq<Button>)
    ensures |r| == |providers|
    ensures forall i :: 0 <= i < |providers| ==>
              r[i] == Button(providers[i], labelView, Capitalize(providers[i]))
  {
    if providers == [] then []
    else [Button(providers[0], labelView, Capitalize(providers[0]))] + Buttons(providers[1..], labelView)
  }

  /**
   * `SocialAuth`: nothing for an empty provider list, the default list when
   * none is given, and the divider only when the forms are shown too.
   */
  function SocialAuth(providers: Option<seq<string>>, onlyThirdPartyProviders: Option<bool>,
                      view: Option<SignView>): (r: Option<SocialSection>)
    ensures r.None? <==> ProvidersOf(providers) == []
    ensures providers.None? ==> r.Some? && |r.value.buttons| == 3
    ensures r.Some? ==> r.value.divider == (onlyThirdPartyProviders == Some(false))
    ensures r.Some? ==> |r.value.buttons| == |ProvidersOf(providers)|
    ensures r.Some? ==> forall i :: 0 <= i < |r.value.buttons| ==>
              r.value.buttons[i].provider == ProvidersOf(providers)[i] &&
              r.value.buttons[i].providerName == Capitalize(ProvidersOf(providers)[i]) &&
              r.value.buttons[i].labelView == CurrentView(view.GetOr(SignIn))
  {
    var list := ProvidersOf(providers);
    if |list| == 0 then None
    else Some(SocialSection(Buttons(list, CurrentView(view.GetOr(SignIn))), !onlyThirdPartyProviders.GetOr(true)))
  }

  // ---------------------------------------------------------------- one-time passcodes

  /** `isPhone`: the category is a mobile one, and otherwise an e-mail one. */
  function IsPhone(t: C.OtpType): (b: bool)
    ensures b <==> C.IsMobileOtpType(t)
    ensures !b <==> C.IsEmailOtpType(t)
  {
    t == C.Sms || t == C.PhoneChange
  }

  /**
   * `verifyOpts`: phone and token for the mobile categories, e-mail and token
   * otherwise; the category is passed through and always fits the payload's union.
   */
  function VerifyOpts(t: C.OtpType, email: string, phone: string, token: string): (p: C.VerifyOtpParams)
    ensures p.PhoneOtp? <==> C.IsMobileOtpType(t)
    ensures p.token == token && p.otpType == t
    ensures p.PhoneOtp? ==> p.phone == phone && C.IsMobileOtpType(p.otpType)
    ensures p.EmailOtp? ==> p.email == email && C.IsEmailOtpType(p.otpType)
  {
    if IsPhone(t) then C.PhoneOtp(phone, token, t) else C.EmailOtp(email, token, t)
  }

  // ---------------------------------------------------------------- links

  /** A link inside a form: the view it opens and whether it first copies the draft into the defaults. */
  datatype Link = Link(target: View, carriesDraft: bool)

  /**
   * The links a form offers. From sign-in: magic link (only with `magicLink`),
   * forgotten password, and sign-up carrying the draft; from sign-up: sign-in
   * carrying the draft; from the forgotten-password and magic-link forms: a plain
   * sign-in link. The update-password and OTP forms get no links (the OTP form is
   * given neither `showLinks` nor `setAuthView`). `showLinks` off hides them all.
   */
  function Links(f: Form, magicLink: bool, showLinks: bool): (r: seq<Link>)
    ensures !showLinks ==> r == []
    ensures Link(MagicLink, false) in r <==> showLinks && magicLink && f == EmailAuthForm(SignIn)
    ensures Link(ForgottenPassword, false) in r <==> showLinks && f == EmailAuthForm(SignIn)
    ensures Link(SignUp, true) in r <==> showLinks && f == EmailAuthForm(SignIn)
    ensures Link(SignIn, true) in r <==> showLinks && f == EmailAuthForm(SignUp)
    ensures Link(SignIn, false) in r <==> showLinks && (f == ForgottenPasswordForm || f == MagicLinkForm)
    ensures forall l :: l in r ==> (l.carriesDraft <==> f.EmailAuthForm? && (l.target == SignIn || l.target == SignUp))
    ensures forall l :: l in r ==> l.target != FormView(f)
    ensures forall l :: l in r ==> l.target in {SignIn, SignUp, MagicLink, ForgottenPassword}
    ensures forall l :: l in r ==>
              l in [Link(MagicLink, false), Link(ForgottenPassword, false), Link(SignUp, true),
                    Link(SignIn, true), Link(SignIn, false)]
  {
    if !showLinks then []
    else
      match f
      case EmailAuthForm(v) =>
        var toMagicLink := if v == SignIn && magicLink then [Link(MagicLink, false)] else [];
        var toForgotten := if v == SignIn then [Link(ForgottenPassword, false)] else [];
        var toggle := if v == SignIn then [Link(SignUp, true)] else [Link(SignIn, true)];
        toMagicLink + toForgotten + toggle
      case ForgottenPasswordForm => [Link(SignIn, false)]
      case MagicLinkForm => [Link(SignIn, false)]
      case UpdatePasswordForm => []
      case VerifyOtpForm(_) => []
  }

  // ---------------------------------------------------------------- the widget's state

  /** The draft fields of the mounted form. */
  datatype Draft = Draft(email: string, password: string, phone: string, token: string)

  datatype Field = EmailField | PasswordField | PhoneField | TokenField

  datatype Snapshot = Snapshot(
    view: string,
    defaultEmail: string,
    defaultPassword: string,
    message: string,
    draft: Draft,
    loading: bool,
    ctx: Context.Ctx)

  /** The form currently mounted: none for an unknown view or when only providers are shown. */
  function Mounted(c: Config, view: string): Option<Form> {
    if c.onlyThirdPartyProviders then None else Dispatch(view, c.otpType)
  }

  /** Whether React keeps the same form instance (sign-in and sign-up share `EmailAuth`). */
  predicate SameComponent(a: Option<Form>, b: Option<Form>) {
    a == b || (a.Some? && b.Some? && a.value.EmailAuthForm? && b.value.EmailAuthForm?)
  }

  /** A freshly mounted form's fields: `EmailAuth` starts from the defaults, the others empty. */
  function FreshDraft(f: Option<Form>, defaultEmail: string, defaultPassword: string): Draft {
    if f.Some? && f.value.EmailAuthForm? then Draft(defaultEmail, defaultPassword, "", "")
    else Draft("", "", "", "")
  }

  /** The widget's state on mount. */
  function Start(c: Config, ctx: Context.Ctx, view: string): (s: Snapshot)
    ensures s.message == "" && !s.loading && s.view == view && s.ctx == ctx
    ensures s.defaultEmail == "" && s.defaultPassword == ""
    ensures s.draft == Draft("", "", "", "")
  {
    Snapshot(view, "", "", "", FreshDraft(Mounted(c, view), "", ""), false, ctx)
  }

  /**
   * `setView`: the new id becomes the view. The defaults, the message and the
   * context are untouched (changing view does not clear the message); the
   * draft and `loading` survive exactly when the same form instance stays
   * mounted, otherwise the new form starts fresh.
   */
  function ChangeView(c: Config, s: Snapshot, newView: string): (r: Snapshot)
    ensures r.view == newView
    ensures r.message == s.message && r.ctx == s.ctx
    ensures r.defaultEmail == s.defaultEmail && r.defaultPassword == s.defaultPassword
    ensures SameComponent(Mounted(c, s.view), Mounted(c, newView)) ==> r.draft == s.draft && r.loading == s.loading
    ensures !SameComponent(Mounted(c, s.view), Mounted(c, newView)) ==>
              !r.loading && r.draft == FreshDraft(Mounted(c, newView), s.defaultEmail, s.defaultPassword)
  {
    if SameComponent(Mounted(c, s.view), Mounted(c, newView)) then s.(view := newView)
    else s.(view := newView, draft := FreshDraft(Mounted(c, newView), s.defaultEmail, s.defaultPassword),
             loading := false)
  }

  /**
   * The auth-state stream: the context stores the session; a password-recovery
   * event forces the update-password view, a user-updated or signed-out event
   * forces the sign-in view, and every other event leaves the view alone.
   */
  function AuthStateChanged(c: Config, s: Snapshot, event: C.AuthEvent, session: Option<C.Session>): (r: Snapshot)
    ensures event == C.PasswordRecovery ==> r.view == ViewId(UpdatePassword)
    ensures event == C.UserUpdated || event == C.SignedOut ==> r.view == ViewId(SignIn)
    ensures !(event in {C.PasswordRecovery, C.UserUpdated, C.SignedOut}) ==> r == s.(ctx := r.ctx)
    ensures r.ctx == Context.SessionChanged(s.ctx, session)
    ensures r.message == s.message
    ensures r.defaultEmail == s.defaultEmail && r.defaultPassword == s.defaultPassword
    ensures SameComponent(Mounted(c, s.view), Mounted(c, r.view)) ==> r.draft == s.draft && r.loading == s.loading
    ensures !SameComponent(Mounted(c, s.view), Mounted(c, r.view)) ==>
              !r.loading && r.draft == FreshDraft(Mounted(c, r.view), s.defaultEmail, s.defaultPassword)
  {
    var s' := s.(ctx := Context.SessionChanged(s.ctx, session));
    if event == C.PasswordRecovery then ChangeView(c, s', ViewId(UpdatePassword))
    else if event == C.UserUpdated || event == C.SignedOut then ChangeView(c, s', ViewId(SignIn))
    else s'
  }

  /** The links the mounted form offers under this configuration. */
  function OfferedLinks(c: Config, s: Snapshot): seq<Link> {
    match Mounted(c, s.view)
    case Some(f) => Links(f, c.magicLink, c.showLinks)
    case None => []
  }

  /**
   * Following a link: the sign-in/sign-up toggles copy the draft e-mail and
   * password into the defaults before switching (`handleViewChange`); the
   * other links switch without copying.
   */
  function FollowedLink(c: Config, s: Snapshot, l: Link): (r: Snapshot)
    requires l in OfferedLinks(c, s)
    ensures r.view == ViewId(l.target)
    ensures l.carriesDraft ==> r.defaultEmail == s.draft.email && r.defaultPassword == s.draft.password
    ensures !l.carriesDraft ==> r.defaultEmail == s.defaultEmail && r.defaultPassword == s.defaultPassword
    ensures r.message == s.message && r.ctx == s.ctx
    ensures l.carriesDraft ==> r.draft == s.draft && r.loading == s.loading
    ensures !l.carriesDraft ==>
              !r.loading && r.draft == FreshDraft(Mounted(c, ViewId(l.target)), s.defaultEmail, s.defaultPassword)
  {
    if l.carriesDraft then
      ChangeView(c, s.(defaultEmail := s.draft.email, defaultPassword := s.draft.password), ViewId(l.target))
    else ChangeView(c, s, ViewId(l.target))
  }

  /**
   * Whether the mounted form has an input for `field`: a password input on the
   * e-mail and update-password forms, a token input only on the OTP form, a
   * phone input only on the OTP form for a mobile category, and an e-mail input
   * everywhere else.
   */
  predicate Collects(f: Form, field: Field): (b: bool)
    ensures field == PasswordField ==> (b <==> f.EmailAuthForm? || f.UpdatePasswordForm?)
    ensures field == TokenField ==> (b <==> f.VerifyOtpForm?)
    ensures field == PhoneField ==> (b <==> f.VerifyOtpForm? && C.IsMobileOtpType(f.otpType))
    ensures field == EmailField ==> (b <==> !f.UpdatePasswordForm? && !(f.VerifyOtpForm? && C.IsMobileOtpType(f.otpType)))
  {
    match f
    case EmailAuthForm(_) => field == EmailField || field == PasswordField
    case ForgottenPasswordForm => field == EmailField
    case MagicLinkForm => field == EmailField
    case UpdatePasswordForm => field == PasswordField
    case VerifyOtpForm(t) => field == TokenField || field == (if IsPhone(t) then PhoneField else EmailField)
  }

  function FieldValue(d: Draft, field: Field): string {
    match field
    case EmailField => d.email
    case PasswordField => d.password
    case PhoneField => d.phone
    case TokenField => d.token
  }

  /** An input's `setX(e.target.value)`: that field takes the value, the others keep theirs. */
  function WithField(d: Draft, field: Field, value: string): (r: Draft)
    ensures FieldValue(r, field) == value
    ensures forall other :: other != field ==> FieldValue(r, other) == FieldValue(d, other)
  {
    match field
    case EmailField => d.(email := value)
    case PasswordField => d.(password := value)
    case PhoneField => d.(phone := value)
    case TokenField => d.(token := value)
  }

  /** An input's `onChange`: only a field the mounted form shows can change. */
  function Typed(c: Config, s: Snapshot, field: Field, value: string): (r: Snapshot)
    ensures r.view == s.view && r.message == s.message && r.ctx == s.ctx && r.loading == s.loading
    ensures r.defaultEmail == s.defaultEmail && r.defaultPassword == s.defaultPassword
    ensures Mounted(c, s.view).Some? && Collects(Mounted(c, s.view).value, field) ==>
              r.draft == WithField(s.draft, field, value)
    ensures (Mounted(c, s.view).None? || !Collects(Mounted(c, s.view).value, field)) ==> r == s
  {
    match Mounted(c, s.view)
    case Some(f) => if Collects(f, field) then s.(draft := WithField(s.draft, field, value)) else s
    case None => s
  }

  /**
   * Whether `handleSubmit` throws after its call: the sign-up branch reads
   * `data.user` and `data.session` from the answer, and the default context's
   * answer has no `data`.
   */
  predicate SignUpThrows(s: Snapshot, outcome: C.Response) {
    s.view == ViewId(SignUp) && Context.Answer(s.ctx, outcome).data.None?
  }

  /** Sign-up with e-mail confirmation on: a user comes back but no session. */
  predicate AwaitsConfirmation(r: C.Response) {
    r.data.Some? && r.data.value.user.Some? && r.data.value.session.None?
  }

  /**
   * `EmailAuth.handleSubmit`. Sign-in sends the draft credentials and never
   * touches the message; sign-up sends them with the redirect and extra data and
   * shows the confirmation text only when a user but no session comes back.
   * `loading` ends off, except when the sign-up branch throws on an answer
   * without `data`: then it stays on and the message is left alone.
   */
  function EmailAuthSubmitted(c: Config, s: Snapshot, outcome: C.Response): (r: Snapshot)
    requires Mounted(c, s.view).Some? && Mounted(c, s.view).value.EmailAuthForm?
    ensures r.view == s.view && r.draft == s.draft
    ensures r.defaultEmail == s.defaultEmail && r.defaultPassword == s.defaultPassword
    ensures r.loading <==> SignUpThrows(s, outcome)
    ensures s.view == ViewId(SignIn) ==>
              r.message == s.message &&
              r.ctx == Context.Captured(s.ctx, C.SignInWithPassword(s.draft.email, s.draft.password), outcome)
    ensures s.view == ViewId(SignUp) ==>
              r.ctx == Context.Captured(s.ctx, C.SignUp(s.draft.email, s.draft.password, c.redirectTo, c.additionalData), outcome)
    ensures s.view == ViewId(SignUp) && AwaitsConfirmation(Context.Answer(s.ctx, outcome)) ==>
              r.message == c.labels.signUpConfirmation
    ensures !(s.view == ViewId(SignUp) && AwaitsConfirmation(Context.Answer(s.ctx, outcome))) ==>
              r.message == s.message
  {
    EmailSubmitInterrupted(c, s, outcome, None)
  }

  /** The request `handleSubmit` sends from the e-mail form in this state. */
  function EmailRequest(c: Config, s: Snapshot): C.Request
    requires Mounted(c, s.view).Some? && Mounted(c, s.view).value.EmailAuthForm?
  {
    if Mounted(c, s.view).value.authView == SignIn then C.SignInWithPassword(s.draft.email, s.draft.password)
    else C.SignUp(s.draft.email, s.draft.password, c.redirectTo, c.additionalData)
  }

  /**
   * `handleSubmit` with its `await` spelled out, and a `setView(v)` that may
   * happen while the call is pending. The handler keeps the view, fields and
   * form of the moment it started; a view change that mounts another form
   * unmounts this one, and `isMounted` then stops the final `setLoading(false)`.
   */
  function EmailSubmitInterrupted(c: Config, s: Snapshot, outcome: C.Response, interruption: Option<string>): (r: Snapshot)
    requires Mounted(c, s.view).Some? && Mounted(c, s.view).value.EmailAuthForm?
    ensures r.view == (if interruption.Some? then interruption.value else s.view)
    ensures r.ctx == Context.Captured(s.ctx, EmailRequest(c, s), outcome)
    ensures r.defaultEmail == s.defaultEmail && r.defaultPassword == s.defaultPassword
    ensures r.loading <==>
              SignUpThrows(s, outcome) &&
              (interruption.None? || SameComponent(Mounted(c, s.view), Mounted(c, interruption.value)))
  {
    var before := Mounted(c, s.view);
    var isSignUp := before.value.authView == SignUp;
    var answer := Context.Answer(s.ctx, outcome);
    var started := s.(loading := true, ctx := Context.Invoked(s.ctx, EmailRequest(c, s)));
    var waited := if interruption.Some? then ChangeView(c, started, interruption.value) else started;
    var resolved := waited.(ctx := Context.Completed(waited.ctx, outcome));
    if isSignUp && answer.data.None? then resolved
    else
      var shown := if isSignUp && AwaitsConfirmation(answer) then resolved.(message := c.labels.signUpConfirmation)
                   else resolved;
      var isMounted := interruption.None? || SameComponent(before, Mounted(c, interruption.value));
      if isMounted then shown.(loading := false) else shown
  }

  /**
   * A view change while the e-mail form's call is pending ends in the state
   * reached by the submit followed by that view change: the `isMounted` guard
   * only spares a form that is gone, and a newly mounted form starts with
   * `loading` off. So the atomic `EmailAuthSubmitted` loses nothing.
   */
  lemma InterruptedSubmitCommutes(c: Config, s: Snapshot, outcome: C.Response, v: string)
    requires Mounted(c, s.view).Some? && Mounted(c, s.view).value.EmailAuthForm?
    ensures EmailSubmitInterrupted(c, s, outcome, Some(v)) == ChangeView(c, EmailAuthSubmitted(c, s, outcome), v)
  {
  }

  /**
   * What the forgotten-password, magic-link and update-password handlers
   * promise: the call goes through the wrapper, the message is the confirmation
   * exactly when the answer has no error and is cleared otherwise, `loading`
   * ends off on both paths, and the view, fields and defaults are untouched.
   */
  predicate ConfirmingOutcome(s: Snapshot, r: Snapshot, req: C.Request, outcome: C.Response, confirmation: string) {
    && r.ctx == Context.Captured(s.ctx, req, outcome)
    && (Context.Answer(s.ctx, outcome).error.None? ==> r.message == confirmation)
    && (Context.Answer(s.ctx, outcome).error.Some? ==> r.message == "")
    && !r.loading && r.draft == s.draft && r.view == s.view
    && r.defaultEmail == s.defaultEmail && r.defaultPassword == s.defaultPassword
  }

  /** The handler body those three forms share: clear, capture, confirm on success, stop loading. */
  function ConfirmedSubmit(s: Snapshot, req: C.Request, outcome: C.Response, confirmation: string): (r: Snapshot)
    ensures ConfirmingOutcome(s, r, req, outcome, confirmation)
  {
    var s1 := s.(message := "", loading := true);
    var answer := Context.Answer(s1.ctx, outcome);
    var s2 := s1.(ctx := Context.Captured(s1.ctx, req, outcome));
    var s3 := if answer.error.None? then s2.(message := confirmation) else s2;
    s3.(loading := false)
  }

  /** `ForgottenPassword.handlePasswordReset`: asks for a reset e-mail to the typed address. */
  function PasswordResetSubmitted(c: Config, s: Snapshot, outcome: C.Response): (r: Snapshot)
    requires Mounted(c, s.view) == Some(ForgottenPasswordForm)
    ensures ConfirmingOutcome(s, r, C.ResetPasswordForEmail(s.draft.email, c.redirectTo), outcome,
                              c.labels.forgottenPasswordConfirmation)
  {
    ConfirmedSubmit(s, C.ResetPasswordForEmail(s.draft.email, c.redirectTo), outcome,
                    c.labels.forgottenPasswordConfirmation)
  }

  /** `MagicLink.handleMagicLinkSignIn`: asks for a one-time sign-in e-mail. */
  function MagicLinkSubmitted(c: Config, s: Snapshot, outcome: C.Response): (r: Snapshot)
    requires Mounted(c, s.view) == Some(MagicLinkForm)
    ensures ConfirmingOutcome(s, r, C.SignInWithOtp(s.draft.email, c.redirectTo), outcome,
                              c.labels.magicLinkConfirmation)
  {
    ConfirmedSubmit(s, C.SignInWithOtp(s.draft.email, c.redirectTo), outcome, c.labels.magicLinkConfirmation)
  }

  /** `UpdatePassword.handlePasswordReset`: sets the typed password on the signed-in user. */
  function PasswordUpdateSubmitted(c: Config, s: Snapshot, outcome: C.Response): (r: Snapshot)
    requires Mounted(c, s.view) == Some(UpdatePasswordForm)
    ensures ConfirmingOutcome(s, r, C.UpdateUser(s.draft.password), outcome, c.labels.updatePasswordConfirmation)
  {
    ConfirmedSubmit(s, C.UpdateUser(s.draft.password), outcome, c.labels.updatePasswordConfirmation)
  }

  /**
   * `VerifyOtp.handleSubmit`: clears the message, sends the payload `verifyOpts`
   * builds from the draft, shows no confirmation and ends with `loading` off.
   */
  function OtpSubmitted(c: Config, s: Snapshot, outcome: C.Response): (r: Snapshot)
    requires Mounted(c, s.view) == Some(VerifyOtpForm(c.otpType))
    ensures r.message == "" && !r.loading && r.draft == s.draft && r.view == s.view
    ensures r.defaultEmail == s.defaultEmail && r.defaultPassword == s.defaultPassword
    ensures r.ctx == Context.Captured(s.ctx,
               C.VerifyOtp(VerifyOpts(c.otpType, s.draft.email, s.draft.phone, s.draft.token)), outcome)
  {
    var s1 := s.(message := "", loading := true);
    var opts := VerifyOpts(c.otpType, s.draft.email, s.draft.phone, s.draft.token);
    var s2 := s1.(ctx := Context.Captured(s1.ctx, C.VerifyOtp(opts), outcome));
    s2.(loading := false)
  }

  /** `handleProviderSignIn`: an OAuth redirect with the provider's scopes; only the context changes. */
  function ProviderSignedIn(c: Config, s: Snapshot, provider: string, outcome: C.Response): (r: Snapshot)
    requires IsSignView(s.view) && provider in ProvidersOf(c.providers)
    ensures r == s.(ctx := r.ctx)
    ensures r.ctx == Context.Captured(s.ctx,
               C.SignInWithOAuth(provider, c.redirectTo,
                                 if provider in c.providerScopes then Some(c.providerScopes[provider]) else None,
                                 c.queryParams), outcome)
  {
    var scopes := if provider in c.providerScopes then Some(c.providerScopes[provider]) else None;
    s.(ctx := Context.Captured(s.ctx, C.SignInWithOAuth(provider, c.redirectTo, scopes, c.queryParams), outcome))
  }

  // ---------------------------------------------------------------- rendering

  /** What the widget shows: the social section, the form, the message line and the error line. */
  datatype Screen = Screen(social: Option<SocialSection>, form: Option<Form>,
                           message: Option<string>, error: Option<C.AuthError>)

  /**
   * The widget's output. An unknown view renders nothing at all; otherwise the
   * social section appears only above a sign view (and only with providers),
   * and the form, the message (when non-empty) and the error (when set) appear
   * unless only third-party providers are shown.
   */
  function Render(c: Config, s: Snapshot): (r: Option<Screen>)
    ensures r.None? <==> ParseView(s.view).None?
    ensures r.Some? ==> (r.value.social.Some? <==> IsSignView(s.view) && ProvidersOf(c.providers) != [])
    ensures r.Some? ==> r.value.form == Mounted(c, s.view)
    ensures r.Some? ==> (r.value.form.Some? <==> !c.onlyThirdPartyProviders)
    ensures r.Some? ==> (r.value.message.Some? <==> !c.onlyThirdPartyProviders && s.message != "")
    ensures r.Some? ==> (r.value.error.Some? <==> !c.onlyThirdPartyProviders && s.ctx.error.Some?)
    ensures r.Some? && r.value.social.Some? ==> (r.value.social.value.divider <==> !c.onlyThirdPartyProviders)
    ensures r.Some? ==> r.value.message == (if !c.onlyThirdPartyProviders && s.message != "" then Some(s.message) else None)
    ensures r.Some? ==> r.value.error == (if c.onlyThirdPartyProviders then None else s.ctx.error)
    ensures r.Some? && r.value.social.Some? ==>
              r.value.social.value.buttons == Buttons(ProvidersOf(c.providers), CurrentView(ParseView(s.view).value))
  {
    match Dispatch(s.view, c.otpType)
    case None => None
    case Some(form) =>
      var social :=
        if IsSignView(s.view) then SocialAuth(c.providers, Some(c.onlyThirdPartyProviders), Some(ParseView(s.view).value))
        else None;
      if c.onlyThirdPartyProviders then Some(Screen(social, None, None, None))
      else Some(Screen(social, Some(form), if s.message != "" then Some(s.message) else None, s.ctx.error))
  }

  // ---------------------------------------------------------------- the imperative widget

  class AuthWidget {
    const config: Config
    const ctx: Context.AppContext
    var view: string
    var defaultEmail: string
    var defaultPassword: string
    var message: string
    var draft: Draft
    var loading: bool

    function Snap(): Snapshot
      reads this, ctx
    {
      Snapshot(view, defaultEmail, defaultPassword, message, draft, loading, ctx.Value())
    }

    constructor (config: Config, ctx: Context.AppContext, view: string)
      ensures this.config == config && this.ctx == ctx
      ensures Snap() == Start(config, ctx.Value(), view)
    {
      this.config := config;
      this.ctx := ctx;
      this.view := view;
      defaultEmail, defaultPassword, message := "", "", "";
      draft := FreshDraft(Mounted(config, view), "", "");
      loading := false;
    }

    /** `setView`, with the mounting and unmounting of the form it causes. */
    method SetView(newView: string)
      modifies this
      ensures Snap() == ChangeView(config, old(Snap()), newView)
    {
      var before, after := Mounted(config, view), Mounted(config, newView);
      view := newView;
      if !SameComponent(before, after) {
        draft := FreshDraft(after, defaultEmail, defaultPassword);
        loading := false;
      }
    }

    /** Both subscriptions to the auth-state stream: the provider's and the widget's. */
    method OnAuthStateChange(event: C.AuthEvent, session: Option<C.Session>)
      modifies this, ctx
      ensures Snap() == AuthStateChanged(config, old(Snap()), event, session)
    {
      ctx.OnAuthStateChange(session);
      if event == C.PasswordRecovery {
        SetView(ViewId(UpdatePassword));
      } else if event == C.UserUpdated || event == C.SignedOut {
        SetView(ViewId(SignIn));
      }
    }

    method Type(field: Field, value: string)
      modifies this
      ensures Snap() == Typed(config, old(Snap()), field, value)
    {
      var f := Mounted(config, view);
      if f.Some? && Collects(f.value, field) {
        draft := WithField(draft, field, value);
      }
    }

    /** A link's `onClick`: `handleViewChange` for the toggles, `setAuthView` for the rest. */
    method FollowLink(l: Link)
      requires l in OfferedLinks(config, Snap())
      modifies this
      ensures Snap() == FollowedLink(config, old(Snap()), l)
    {
      if l.carriesDraft {
        defaultEmail := draft.email;
        defaultPassword := draft.password;
      }
      SetView(ViewId(l.target));
    }

    /**
     * `EmailAuth.handleSubmit`. When the answer has no `data` the sign-up
     * branch's destructuring throws, and nothing after it runs.
     */
    method HandleSubmit(outcome: C.Response)
      requires Mounted(config, view).Some? && Mounted(config, view).value.EmailAuthForm?
      modifies this, ctx
      ensures Snap() == EmailAuthSubmitted(config, old(Snap()), outcome)
    {
      var authView := Mounted(config, view).value.authView;
      loading := true;
      if authView == SignIn {
        var _ := ctx.WithCaptureAuthError(C.SignInWithPassword(draft.email, draft.password), outcome);
      }
      if authView == SignUp {
        var r := ctx.WithCaptureAuthError(
          C.SignUp(draft.email, draft.password, config.redirectTo, config.additionalData), outcome);
        if r.data.None? {
          return;
        }
        if r.data.value.user.Some? && r.data.value.session.None? {
          message := config.labels.signUpConfirmation;
        }
      }
      loading := false;
    }

    /** The body shared by the three handlers that confirm success with a message. */
    method SubmitConfirmed(req: C.Request, outcome: C.Response, confirmation: string)
      modifies this, ctx
      ensures Snap() == ConfirmedSubmit(old(Snap()), req, outcome, confirmation)
    {
      message := "";
      loading := true;
      var r := ctx.WithCaptureAuthError(req, outcome);
      if r.error.None? {
        message := confirmation;
      }
      loading := false;
    }

    method HandlePasswordReset(outcome: C.Response)
      requires Mounted(config, view) == Some(ForgottenPasswordForm)
      modifies this, ctx
      ensures Snap() == PasswordResetSubmitted(config, old(Snap()), outcome)
    {
      SubmitConfirmed(C.ResetPasswordForEmail(draft.email, config.redirectTo), outcome,
                      config.labels.forgottenPasswordConfirmation);
    }

    method HandleMagicLinkSignIn(outcome: C.Response)
      requires Mounted(config, view) == Some(MagicLinkForm)
      modifies this, ctx
      ensures Snap() == MagicLinkSubmitted(config, old(Snap()), outcome)
    {
      SubmitConfirmed(C.SignInWithOtp(draft.email, config.redirectTo), outcome, config.labels.magicLinkConfirmation);
    }

    method HandlePasswordUpdate(outcome: C.Response)
      requires Mounted(config, view) == Some(UpdatePasswordForm)
      modifies this, ctx
      ensures Snap() == PasswordUpdateSubmitted(config, old(Snap()), outcome)
    {
      SubmitConfirmed(C.UpdateUser(draft.password), outcome, config.labels.updatePasswordConfirmation);
    }

    method HandleOtpSubmit(outcome: C.Response)
      requires Mounted(config, view) == Some(VerifyOtpForm(config.otpType))
      modifies this, ctx
      ensures Snap() == OtpSubmitted(config, old(Snap()), outcome)
    {
      message := "";
      loading := true;
      var opts := VerifyOpts(config.otpType, draft.email, draft.phone, draft.token);
      var _ := ctx.WithCaptureAuthError(C.VerifyOtp(opts), outcome);
      loading := false;
    }

    method HandleProviderSignIn(provider: string, outcome: C.Response)
      requires IsSignView(view) && provider in ProvidersOf(config.providers)
      modifies ctx
      ensures Snap() == ProviderSignedIn(config, old(Snap()), provider, outcome)
    {
      var scopes := if provider in config.providerScopes then Some(config.providerScopes[provider]) else None;
      var _ := ctx.WithCaptureAuthError(
        C.SignInWithOAuth(provider, config.redirectTo, scopes, config.queryParams), outcome);
    }
  }
}

=== FILE: client.dfy ===
/**
 * The vocabulary of the hosted authentication client that the widget hands
 * every credential operation to. The client itself (network round trips,
 * token storage, e-mail and SMS delivery) is not modelled: a call is a
 * `Request` value, and whatever the backend answers is a `Response` that the
 * caller of the model chooses freely.
 */
module Client {
  import opened Wrappers

  datatype User = User(id: string, email: string)

  datatype Session = Session(accessToken: string, user: User)

  /** Opaque beyond its message: the widget only displays it. */
  datatype AuthError = AuthError(message: string)

  /** The `data` part of a client result: `{ user, session }`. */
  datatype AuthData = AuthData(user: Option<User>, session: Option<Session>)

  /**
   * `{ error, data }` as a call resolves. The client always fills `data`; a
   * result without it is what the default context's wrapper answers.
   */
  datatype Response = Response(error: Option<AuthError>, data: Option<AuthData>)

  /** The client's OTP categories: the two mobile ones and the six e-mail ones. */
  datatype OtpType = Sms | PhoneChange | Signup | Invite | Magiclink | Recovery | EmailChange | Email

  /** Membership in the client's `MobileOtpType` union. */
  predicate IsMobileOtpType(t: OtpType) {
    match t
    case Sms => true
    case PhoneChange => true
    case _ => false
  }

  /** Membership in the client's `EmailOtpType` union. */
  predicate IsEmailOtpType(t: OtpType) {
    match t
    case Signup => true
    case Invite => true
    case Magiclink => true
    case Recovery => true
    case EmailChange => true
    case Email => true
    case _ => false
  }

  /** The two shapes of `VerifyOtpParams`. */
  datatype VerifyOtpParams =
    | PhoneOtp(phone: string, token: string, otpType: OtpType)
    | EmailOtp(email: string, token: string, otpType: OtpType)

  /** One call into the client, with the arguments the widget passes. */
  datatype Request =
    | SignInWithPassword(email: string, password: string)
    | SignUp(email: string, password: string, emailRedirectTo: Option<string>, data: Option<map<string, string>>)
    | SignInWithOtp(email: string, emailRedirectTo: Option<string>)
    | ResetPasswordForEmail(email: string, redirectTo: Option<string>)
    | UpdateUser(password: string)
    | VerifyOtp(params: VerifyOtpParams)
    | SignInWithOAuth(provider: string, redirectTo: Option<string>, scopes: Option<string>,
                      queryParams: Option<map<string, string>>)
    | SignOut

  /** Events of the client's auth-state stream. */
  datatype AuthEvent =
    | InitialSession | SignedIn | SignedOut | TokenRefreshed | UserUpdated
    | PasswordRecovery | MfaChallengeVerified
}

=== FILE: context.dfy ===
/**
 * The session/error context (src/contexts/appContext.tsx): the single holder
 * of the current session and of the last error of any auth operation, and the
 * error-capturing wrapper every operation goes through.
 *
 * `Ctx` is the value the context exposes; `sent` records the calls handed to
 * the client, so that "the operation ran" and "the operation did not run" can
 * be stated. `provided` is false for the default value a consumer sees when no
 * provider is mounted above it.
 */
module Context {
  import opened Wrappers
  import opened Client

  datatype Ctx = Ctx(provided: bool, session: Option<Session>, error: Option<AuthError>, sent: seq<Request>)

  /** `user` is derived from `session`: `session?.user ?? null`. */
  function UserOf(session: Option<Session>): (u: Option<User>)
    ensures u.Some? <==> session.Some?
    ensures u.Some? ==> u.value == session.value.user
  {
    match session
    case Some(s) => Some(s.user)
    case None => None
  }

  /** The state on mount, inside or outside a provider. */
  function Initial(provided: bool): (c: Ctx)
    ensures c.provided == provided
    ensures c.session.None? && c.error.None? && c.sent == []
  {
    Ctx(provided, None, None, [])
  }

  /** First half of `withCaptureAuthError`, up to the `await`: clear the error, start the call. */
  function Invoked(c: Ctx, req: Request): (d: Ctx)
    ensures c.provided ==> d.error.None? && d.sent == c.sent + [req]
    ensures d.provided == c.provided && d.session == c.session
    ensures !c.provided ==> d == c
  {
    if c.provided then c.(error := None, sent := c.sent + [req]) else c
  }

  /** Second half, once the call resolved: keep the result's error if it has one. */
  function Completed(c: Ctx, outcome: Response): (d: Ctx)
    ensures c.provided && outcome.error.Some? ==> d.error == outcome.error
    ensures c.provided && outcome.error.None? ==> d.error == c.error
    ensures d.provided == c.provided && d.session == c.session && d.sent == c.sent
    ensures !c.provided ==> d == c
  {
    if c.provided && outcome.error.Some? then c.(error := outcome.error) else c
  }

  /** What the wrapper hands back to its caller; the default one resolves to `{ error: null }`, without `data`. */
  function Answer(c: Ctx, outcome: Response): (r: Response)
    ensures c.provided ==> r == outcome
    ensures !c.provided ==> r.error.None? && r.data.None?
  {
    if c.provided then outcome else Response(None, None)
  }

  /**
   * The whole wrapper. Inside a provider the call is sent once and the stored
   * error ends up being exactly the result's error (cleared before the call,
   * overwritten only by a non-null error); the session is not touched. Outside
   * a provider nothing is sent and nothing changes.
   */
  function Captured(c: Ctx, req: Request, outcome: Response): (d: Ctx)
    ensures c.provided ==> d.sent == c.sent + [req] && d.error == outcome.error
    ensures d.provided == c.provided && d.session == c.session
    ensures !c.provided ==> d == c
  {
    Completed(Invoked(c, req), outcome)
  }

  /** `clearError`: sets the error to null; the default one does nothing. */
  function Cleared(c: Ctx): (d: Ctx)
    ensures c.provided ==> d.error.None?
    ensures d.provided == c.provided && d.session == c.session && d.sent == c.sent
    ensures !c.provided ==> d == c
  {
    if c.provided then c.(error := None) else c
  }

  /** The provider's auth-state listener stores whatever session it receives. */
  function SessionChanged(c: Ctx, session: Option<Session>): (d: Ctx)
    ensures c.provided ==> d.session == session
    ensures d.provided == c.provided && d.error == c.error && d.sent == c.sent
    ensures !c.provided ==> d == c
  {
    if c.provided then c.(session := session) else c
  }

  lemma ClearErrorIdempotent(c: Ctx)
    ensures Cleared(Cleared(c)) == Cleared(c)
  {
  }

  /** The error is null at the moment the operation is started. */
  lemma ErrorClearedBeforeCall(c: Ctx, req: Request)
    requires c.provided
    ensures Invoked(c, req).error.None?
    ensures Invoked(c, req).sent == c.sent + [req]
  {
  }

  /** The context object the provider keeps in React state. */
  class AppContext {
    const provided: bool
    var session: Option<Session>
    var error: Option<AuthError>
    var sent: seq<Request>

    function Value(): Ctx
      reads this
    {
      Ctx(provided, session, error, sent)
    }

    constructor (provided: bool)
      ensures Value() == Initial(provided)
    {
      this.provided := provided;
      session := None;
      error := None;
      sent := [];
    }

    /** `user` as the context exposes it. */
    function User(): (u: Option<User>)
      reads this
      ensures u.Some? <==> session.Some?
      ensures u.Some? ==> u.value == session.value.user
    {
      UserOf(session)
    }

    method ClearError()
      modifies this
      ensures Value() == Cleared(old(Value()))
    {
      if provided {
        error := None;
      }
    }

    /** `setError(null)` followed by starting `cb()`. */
    method Invoke(req: Request)
      modifies this
      ensures Value() == Invoked(old(Value()), req)
      ensures provided ==> error.None?
    {
      if provided {
        error := None;
        sent := sent + [req];
      }
    }

    /** Resumption after the `await`: `if (result.error) setError(result.error)`, then `return result`. */
    method Complete(outcome: Response) returns (r: Response)
      modifies this
      ensures Value() == Completed(old(Value()), outcome)
      ensures r == Answer(old(Value()), outcome)
    {
      if provided {
        if outcome.error.Some? {
          error := outcome.error;
        }
        r := outcome;
      } else {
        r := Response(None, None);
      }
    }

    method WithCaptureAuthError(req: Request, outcome: Response) returns (r: Response)
      modifies this
      ensures Value() == Captured(old(Value()), req, outcome)
      ensures r == Answer(old(Value()), outcome)
    {
      Invoke(req);
      r := Complete(outcome);
    }

    /** The provider's subscription to the client's auth-state stream. */
    method OnAuthStateChange(newSession: Option<Session>)
      modifies this
      ensures Value() == SessionChanged(old(Value()), newSession)
    {
      if provided {
        session := newSession;
      }
    }
  }
}

=== FILE: wrappers.dfy ===
/** The optional value used wherever the source has `T | null` or an omitted prop. */
module Wrappers {

  datatype Option<+T> = None | Some(value: T) {

    /** The `??` / default-parameter reading: the value when present, `default` otherwise. */
    function GetOr(default: T): T {
      match this
      case Some(v) => v
      case None => default
    }
  }
}
